=== FILE: README.md ===
# Detect-Codec in Dafny

A model of `detect_encoding.py`, which guesses the character encoding of a text file. The
function `detect_encoding(file_path, **kwargs)` works in five steps:

1. It merges the keyword arguments into the defaults `full_check=True`, `size=None` and `verbose=False`.
2. It applies a size guard when `size` is set.
3. It asks `tokenize.detect_encoding` for the file's encoding cookie.
4. Without a cookie, it picks the bytes to try: the whole file, or only its first line when `full_check` is falsy.
5. It tries the codecs of the fixed, ordered list `CODECS` one by one with `attempt_decode` and returns the first one that decodes. If none decodes, the loop starts the list again, forever.

The two library facilities are inputs, carried in a `Library` value:

- `tokenize.detect_encoding` is `scan`. It returns a declared codec name or raises `SyntaxError` with a message.
- `bytes.decode` is `decode`. It decodes, raises `UnicodeDecodeError`, or raises another error.

The file is its byte sequence. `DetectEncoding` cuts the outer `while` loop off after `passes` passes and then reports
`StillSearching`. Lemmas show that one pass settles the outcome, so a call that is
`StillSearching` for every `passes` is a call that never returns.

Modules:

- `PyValues` (`python_values.dfy`): bytes, keyword-argument values, truthiness, `in` on strings, exceptions.
- `Codecs` (`codecs.dfy`): `CODECS`, `attempt_decode`, and one first-match-wins pass.
- `Params` (`params.dfy`): the keyword-argument merge.
- `Sampling` (`sampling.dfy`): the first line and the sampled contents.
- `Detect` (`detect.dfy`): `detect_encoding` as written.
- `Intended` (`intended.dfy`): the same call, with the two defects under "## Findings" corrected.

The assertion message at line 93 and the test at line 104 describe behaviour that the code does not have:

- The size limit should abort only a file that is too large.
- A `SyntaxError` whose message lacks the marker `invalid or missing encoding declaration for` should propagate. That is the test line 104 evidently means, read as `('…' in str(err)) is False`.

The comment at line 103 is worded more broadly: it re-raises only errors "not related to identifying the encoding". Every `SyntaxError` the scan raises is about identifying the encoding, including the unknown-codec and `encoding problem` errors. Under the comment's wording, those errors would also fall through to the search. `Intended` follows the marker test at line 104.

`Detect` follows the code, and `Intended` models the intent of lines 93 and 104.

## Model

| member | source | states |
|---|---|---|
| Codecs.AttemptDecode | detect_encoding.py:143-170 | Total: it returns true exactly when the decode completes, and false for `UnicodeDecodeError` and for every other error, which the `return` in `finally` swallows |
| Codecs.FirstDecodable | detect_encoding.py:123-136 | The index of the first codec that decodes: every earlier codec fails, and the one at the index succeeds unless the index is past the end |
| Codecs.FirstMatch | detect_encoding.py:123-136 | One pass returns a member of the list that decodes the bytes, at a first-match index; it returns nothing exactly when no codec decodes |
| Codecs.FirstMatchAtUnique | detect_encoding.py:123-136 | At most one index is a first-match index |
| Codecs.FirstMatchIsAtMinimalIndex | detect_encoding.py:123-136 | If the codec at index k decodes and all earlier ones fail, one pass returns exactly the codec at k |
| Codecs.SearchPass | detect_encoding.py:123-136 | The `for` loop with `break`: `codec_known` ends true exactly when some codec decodes, and the detected codec is the first match |
| PyValues.Contains | detect_encoding.py:104 | Python's `sub in s` is true exactly when `sub` occurs as a slice of `s` |
| Params.SuppliedKeys | detect_encoding.py:84-85 | The keys assigned by the keyword loop: each supplied key, and nothing else |
| Params.LastSupplied | detect_encoding.py:84-85 | The value a key ends with after the keyword loop: absent exactly when the key is not supplied, otherwise the value of its last assignment |
| Params.LastIndexOf | detect_encoding.py:84-85 | The position of the last assignment to a key: that entry assigns the key, no later entry does, and -1 means no entry does |
| Params.Merge | detect_encoding.py:78-85 | After the loop, the keys are the defaults' keys plus the supplied ones. Keyword arguments are a sequence of pairs, so a key may repeat and the last assignment wins. Python itself rejects a repeated keyword with `TypeError` at the call, so the program never meets that case |
| Params.MergeLookup | detect_encoding.py:78-85 | After the loop, a supplied key holds its last supplied value, and every other key keeps its starting value |
| Params.OneKeyword | detect_encoding.py:78-85 | A single keyword gives the defaults with that one entry replaced |
| Params.CallParams | detect_encoding.py:78-85 | The merged parameters always have `full_check`, `size` and `verbose` |
| Params.OverrideOnlyOwnEntry | detect_encoding.py:78-85 | A default key the caller does not supply keeps its default; a supplied one holds the value last supplied |
| Params.NoKeywordsMeansDefaults | detect_encoding.py:78-82 | With no keywords: `full_check` is True, `size` is None, `verbose` is False |
| Sampling.FirstLine | detect_encoding.py:120 | `readline()` returns a prefix of the file with no newline before its last byte. It ends in a newline when the file has one, and is the whole file otherwise |
| Sampling.FirstLineIgnoresRest | detect_encoding.py:120 | Appending bytes after a file that already has a newline leaves its first line unchanged |
| Sampling.FirstLineUnique | detect_encoding.py:120 | Exactly one prefix has these properties, so they fully characterise the first line |
| Sampling.Sample | detect_encoding.py:115-120 | The sampled contents are always a prefix of the file: all of it under `full_check`, otherwise the first line |
| Detect.SizeInMb | detect_encoding.py:90 | The size in megabytes is non-negative and equals the byte count divided by 1048576 |
| Detect.FloatLessThan | detect_encoding.py:93 | The comparison `file_size < size` raises `TypeError` exactly for None or a string; for a number it is the numeric comparison, and a bool compares as 0 or 1 |
| Detect.SizeGuard | detect_encoding.py:92-94 | With a limit set, the call always ends with an exception. A numeric limit gives `SystemExit` exactly when the file is below the limit and an `AssertionError` otherwise; a bool limit compares as 0 or 1, and a string limit gives `TypeError` |
| Detect.ReraiseAsWrittenNeverHolds | detect_encoding.py:104-105 | The chained test `'…' in str(err) is False` is false for every message |
| Detect.CheckCookie | detect_encoding.py:96-113 | The cookie check knows the codec exactly when the scan returns one, and then it is the scanned name; it never re-raises |
| Detect.SearchLoop | detect_encoding.py:122-136 | A search result is a codec of the list that decodes the contents, and every codec before it fails; the search never raises |
| Detect.SearchLoopSettles | detect_encoding.py:122-136 | From one pass on, the outcome does not depend on the number of passes: the first match if there is one, otherwise still searching |
| Detect.SearchLoopDiverges | detect_encoding.py:122-136 | If no codec decodes the contents, the search is still running after any number of passes |
| Detect.Search | detect_encoding.py:122-136 | The nested loops agree with the search function and return a first match. They are still searching exactly when they had no pass or no codec decodes |
| Detect.DetectEncoding | detect_encoding.py:52-140 | The call raises exactly when `size` is set, and never a `SyntaxError`. A scanned cookie is returned as is; any other result is the first codec of the list that decodes the sampled contents |
| Detect.SizeGuardPrecedesScanAndDecode | detect_encoding.py:92-100 | With `size` set, the outcome does not depend on the scan, the decoder or the file's bytes (only its length), and the call never returns a codec |
| Detect.SmallFileWithLimitExits | detect_encoding.py:92-94 | A file of fewer than 1048523 bytes (below 1.0 MB even after rounding to four places) with `size=1.0` still ends the call with `SystemExit` |
| Detect.CookieBypassesSearch | detect_encoding.py:111-122 | With no keywords and a cookie, the declared name is the result whatever the decoder does, even a name that is not in the codec list |
| Detect.UnrelatedSyntaxErrorSwallowed | detect_encoding.py:102-109 | With no keywords, every scan error whose message lacks the missing-declaration marker still falls through to brute-force search instead of propagating |
| Detect.UnknownEncodingSwallowed | detect_encoding.py:96-109 | The scan's message for the unknown codec `foo` on the file `sample.txt`, `unknown encoding for 'sample.txt': foo`, lacks the marker, so with no keywords that error is swallowed |
| Detect.SearchOutcome | detect_encoding.py:115-136 | With no limit and no cookie, any pass count of at least one gives the first match. The call is still searching exactly when no codec decodes |
| Detect.DetectEncodingDiverges | detect_encoding.py:122-136 | With no limit and no cookie, if no codec decodes the sampled contents, the call never returns |
| Detect.FirstLineOnly | detect_encoding.py:115-120 | With `full_check=False` as the only keyword, bytes after the first newline do not change the result when the scan gives the same result for both files |
| Detect.EmptyFileWithScanErrorIsAscii | detect_encoding.py:122-136 | With no keywords, when the scan raises on an empty file and every codec decodes zero bytes, the file is detected as `ascii` |
| Detect.EmptyFileIsUtf8 | detect_encoding.py:96-113 | With no keywords, when the scan reports its default `utf-8` for an empty file, as the standard `tokenize` does, the result is `utf-8` |
| Detect.Cp1252File | detect_encoding.py:122-136 | When the scan raises and no keywords are given, bytes that `cp1252` decodes and the 45 codecs before it reject are detected as `cp1252` |
| Intended.SizeGuardIntended | detect_encoding.py:92-94 | The corrected guard lets the call continue exactly when the file is below a numeric limit, and otherwise raises the size assertion |
| Intended.CheckCookieIntended | detect_encoding.py:102-113 | The corrected cookie check re-raises a scan error exactly when its message lacks the missing-declaration marker |
| Intended.DetectEncodingIntended | detect_encoding.py:52-140 | In the corrected call, a numeric `size` at or below the file size raises the size assertion and a string one `TypeError`. Once the guard passes, a cookie is returned and a scan error without the marker is raised. A `SyntaxError` comes only from such a scan error, and a search result is a first match |
| Intended.IntendedSizeGuard | detect_encoding.py:92-94 | Corrected: a file below the limit gets the same outcome as a call with no limit; a file at or over the limit gets the assertion |
| Intended.IntendedReraisesUnrelated | detect_encoding.py:102-105 | Corrected: every scan error whose message lacks the marker propagates |
| Intended.IntendedAgreesOtherwise | detect_encoding.py:92-113 | Without a limit, and without an unrelated scan error, the corrected call and the call as written agree |

## Left out

- File I/O (`open`, `read`, `readline`, `os.path.getsize`): the file is a byte sequence. The model assumes the two reads see the same bytes. Errors opening the file are not modelled.
- The real behaviour of `tokenize.detect_encoding` and of `bytes.decode` for each codec: both are library code, so they are inputs. In the standard library, the scan returns `utf-8` when a file has no cookie and its first lines are valid UTF-8. Under that library, the brute-force search runs only after a `SyntaxError`. The standard `cp037` (`CODECS[12]`) has no undefined byte, so every byte string decodes by index 12 at the latest. The hang of `DetectEncodingDiverges` and the `cp1252` result of `Cp1252File` therefore need a decoder unlike the standard one.
- Exceptions from the scan other than `SyntaxError`: these are I/O failures, which propagate unchanged.
- The Python version assertion at line 88: it concerns the interpreter, not the file.
- Colorama initialisation, the verbose diagnostics and the final `print(TextStyle.RESET_ALL)`: output only, with no effect on the result. `verbose` is merged like any key but never read.
- Keyword values other than None, bools, numbers and strings: `Value` has no other cases.
- Floats: a number is an exact real, so `size=float('nan')` and the infinities cannot be passed. With `nan`, `file_size < size` is false and the call raises the size assertion.
- Running with assertions disabled (`python -O`): the size assertion vanishes, and `sys.exit()` still ends every call with a limit.
- SizeInMb: does not model the rounding to four decimal places in `round(…, 4)`. It only decides between `AssertionError` and `SystemExit` for a file within 0.00005 MB of the limit.
- FirstLineOnly: `tokenize.detect_encoding` reads a second line when the first is blank or a comment, so a cookie or invalid UTF-8 on line 2 can change the result. The lemma therefore assumes the scan gives the same result for both files.
- DetectEncoding: the outer `while` loop is cut off after `passes` passes, because the model must terminate. `StillSearching` stands for a loop still running, and `SearchLoopSettles` shows that one pass already fixes the outcome.
- Search: the same pass bound as `DetectEncoding`.

## Findings

| source | as written | input that shows it | evidently intended | confidence | as-written member | corrected member |
|---|---|---|---|---|---|---|
| detect_encoding.py:92-94 | When `size` is set, `sys.exit()` follows the size assertion unconditionally, so every call with a limit aborts | an empty file with `size=1.0` ends with `SystemExit` | abort only when the file is not below the limit, otherwise detect as usual | medium, not executed | Detect.SmallFileWithLimitExits | Intended.IntendedSizeGuard |
| detect_encoding.py:104 | `'…' in str(err) is False` chains into `('…' in str(err)) and (str(err) is False)`, which is always false, so no scan error is re-raised | the scan raises `SyntaxError("unknown encoding for 'sample.txt': foo")`, and the call goes on to brute-force search | re-raise when the message lacks the missing-declaration marker, as the marker test written at line 104 says | high, not executed | Detect.UnrelatedSyntaxErrorSwallowed | Intended.IntendedReraisesUnrelated |

=== FILE: codecs.dfy ===
/**
 The candidate codec list and the brute-force trial decoder: `attempt_decode`
 and one first-match-wins walk over `CODECS`.

 `bytes.decode(codec)` is library code; it enters the model as a `Decoder`,
 a function from the bytes and the codec name to what the call does.
 */
module Codecs {
  import opened PyValues

  /** The Python 3.7 codec list, in priority order. */
  const CODECS: seq<string> :=
      ["ascii", "utf-7", "utf-8-sig", "utf-8", "utf-16", "utf-16-be", "utf-16-le", "utf-32", "utf-32-be"]
    + ["utf-32-le", "big5", "big5hkscs", "cp037", "cp273", "cp424", "cp437", "cp500", "cp720", "cp737"]
    + ["cp775", "cp850", "cp852", "cp855", "cp856", "cp857", "cp858", "cp860", "cp861", "cp862", "cp863"]
    + ["cp864", "cp865", "cp866", "cp869", "cp874", "cp875", "cp932", "cp949", "cp950", "cp1006", "cp1026"]
    + ["cp1125", "cp1140", "cp1250", "cp1251", "cp1252", "cp1253", "cp1254", "cp1255", "cp1256", "cp1257"]
    + ["cp1258", "cp65001", "euc-jp", "euc-jis-2004", "euc-jisx0213", "euc-kr", "gb2312", "gbk", "gb18030"]
    + ["hz", "iso2022-jp", "iso2022-jp-1", "iso2022-jp-2", "iso2022-jp-2004", "iso2022-jp-3"]
    + ["iso2022-jp-ext", "iso2022-kr", "latin-1", "iso8859-2", "iso8859-3", "iso8859-4", "iso8859-5"]
    + ["iso8859-6", "iso8859-7", "iso8859-8", "iso8859-9", "iso8859-10", "iso8859-11", "iso8859-13"]
    + ["iso8859-14", "iso8859-15", "iso8859-16", "johab", "koi8-r", "koi8-t", "koi8-u", "kz1048"]
    + ["mac-cyrillic", "mac-greek", "mac-iceland", "mac-latin2", "mac-roman", "mac-turkish", "ptcp154"]
    + ["shift-jis", "shift-jis-2004", "shift-jisx0213"]

  /** What `text.decode(codec)` does: return a string, raise `UnicodeDecodeError`,
      or raise anything else (an unknown codec's `LookupError`, say). */
  datatype DecodeOutcome = Decoded | UnicodeDecodeError | OtherError

  type Decoder = (seq<byte>, string) -> DecodeOutcome

  /** The decode of `text` with `codec` completes without raising. */
  predicate Decodes(decode: Decoder, text: seq<byte>, codec: string)
  {
    decode(text, codec) == Decoded
  }

  /** How the `try` block of `attempt_decode` ends: normally with the value of
      `codec_found`, or with an exception still pending. */
  datatype TryExit = Completed(codecFound: bool) | Pending(raised: DecodeOutcome)

  /** `attempt_decode`: the `except` clause handles only `UnicodeDecodeError`,
      but the `return` in `finally` replaces whatever exception is still pending,
      so the call always returns a boolean. */
  function AttemptDecode(text: seq<byte>, codec: string, decode: Decoder): (codecFound: bool)
    ensures codecFound <==> Decodes(decode, text, codec)
  {
    var initial := false;
    var afterTry :=
      if decode(text, codec) == Decoded then Completed(true)
      else Pending(decode(text, codec));
    var afterExcept :=
      if afterTry == Pending(UnicodeDecodeError) then Completed(initial) else afterTry;
    // `finally: return codec_found` discards a pending exception.
    match afterExcept
    case Completed(found) => found
    case Pending(_) => initial
  }

  /** Index of the first codec of `codecs` that decodes `text`, or `|codecs|` when none does. */
  function FirstDecodable(text: seq<byte>, decode: Decoder, codecs: seq<string>): (k: nat)
    ensures k <= |codecs|
    ensures forall j :: 0 <= j < k ==> !Decodes(decode, text, codecs[j])
    ensures k < |codecs| ==> Decodes(decode, text, codecs[k])
    decreases |codecs|
  {
    if |codecs| == 0 then 0
    else if AttemptDecode(text, codecs[0], decode) then 0
    else
      var k := 1 + FirstDecodable(text, decode, codecs[1..]);
      assert forall j :: 1 <= j < k ==> codecs[j] == codecs[1..][j - 1];
      k
  }

  /** `codecs[k]` decodes `text` and every codec before it fails. */
  predicate IsFirstMatchAt(text: seq<byte>, decode: Decoder, codecs: seq<string>, k: int)
  {
    0 <= k < |codecs| &&
    Decodes(decode, text, codecs[k]) &&
    forall j :: 0 <= j < k ==> !Decodes(decode, text, codecs[j])
  }

  /** No codec of `codecs` decodes `text`. */
  predicate NoneDecodes(text: seq<byte>, decode: Decoder, codecs: seq<string>)
  {
    forall j :: 0 <= j < |codecs| ==> !Decodes(decode, text, codecs[j])
  }

  /** One pass of the `for codec in CODECS` loop: the first codec that decodes `text`. */
  function FirstMatch(text: seq<byte>, decode: Decoder, codecs: seq<string>): (r: Option<string>)
    ensures r.Some? ==> r.value in codecs && Decodes(decode, text, r.value)
    ensures r.Some? ==> exists k :: IsFirstMatchAt(text, decode, codecs, k) && codecs[k] == r.value
    ensures r.None? <==> NoneDecodes(text, decode, codecs)
  {
    var k := FirstDecodable(text, decode, codecs);
    if k < |codecs| then
      assert IsFirstMatchAt(text, decode, codecs, k);
      Some(codecs[k])
    else None
  }

  /** There is at most one first-match index: the result of a pass is unique. */
  lemma FirstMatchAtUnique(text: seq<byte>, decode: Decoder, codecs: seq<string>, k1: int, k2: int)
    requires IsFirstMatchAt(text, decode, codecs, k1)
    requires IsFirstMatchAt(text, decode, codecs, k2)
    ensures k1 == k2
  {
  }

  /** The pass returns the codec at the first-match index, whenever there is one. */
  lemma {:induction false} FirstMatchIsAtMinimalIndex(text: seq<byte>, decode: Decoder, codecs: seq<string>, k: int)
    requires IsFirstMatchAt(text, decode, codecs, k)
    ensures FirstMatch(text, decode, codecs) == Some(codecs[k])
  {
    var r := FirstMatch(text, decode, codecs);
    assert r.Some?;
    var k' :| IsFirstMatchAt(text, decode, codecs, k') && codecs[k'] == r.value;
    FirstMatchAtUnique(text, decode, codecs, k, k');
  }

  /** The `for codec in CODECS` loop of one pass, with its `break` on the first success.
      `codecKnown` is the final value of `codec_known`; `detected` is set only on success. */
  method SearchPass(text: seq<byte>, decode: Decoder, codecs: seq<string>) returns (codecKnown: bool, detected: string)
    ensures codecKnown <==> !NoneDecodes(text, decode, codecs)
    ensures codecKnown ==> exists k :: IsFirstMatchAt(text, decode, codecs, k) && codecs[k] == detected
    ensures codecKnown ==> FirstMatch(text, decode, codecs) == Some(detected)
  {
    codecKnown := false;
    detected := "";
    var i := 0;
    while i < |codecs|
      invariant 0 <= i <= |codecs|
      invariant !codecKnown
      invariant forall j :: 0 <= j < i ==> !Decodes(decode, text, codecs[j])
    {
      codecKnown := AttemptDecode(text, codecs[i], decode);
      if codecKnown {
        detected := codecs[i];
        assert IsFirstMatchAt(text, decode, codecs, i);
        FirstMatchIsAtMinimalIndex(text, decode, codecs, i);
        break;
      }
      i := i + 1;
    }
  }
}

=== FILE: detect.dfy ===
/**
 `detect_encoding` as written: parameter merge, size guard, cookie check,
 choice of the sampled bytes, and the brute-force search that restarts the
 walk over `CODECS` while no codec has matched.

 The library facilities the function calls enter as a `Library` value:
 `tokenize.detect_encoding` becomes `scan`, `bytes.decode` becomes `decode`.
 The file is its byte sequence. The outer `while codec_known is False` loop
 runs for at most `passes` passes in the model; `StillSearching` is the
 outcome "the loop is still running", and the lemmas below show that it is
 the same for every positive number of passes, so it stands for a loop that
 never ends.
 */
module Detect {
  import opened PyValues
  import opened Codecs
  import opened Params
  import opened Sampling

  /** What `tokenize.detect_encoding(file.readline)` does: return a token whose
      first element names the codec, or raise `SyntaxError` with a message. */
  datatype ScanResult = Declared(encoding: string) | ScanSyntaxError(message: string)

  datatype Library = Library(scan: seq<byte> -> ScanResult, decode: Decoder)

  /** How a call to `detect_encoding` ends. */
  datatype Outcome = Returned(codec: string) | Raised(error: PyError) | StillSearching

  const BytesPerMb: real := 1048576.0

  const SizeLimitMessage := "The file size is greater than the set limit."

  /** The message prefix that marks a missing or undecodable encoding declaration. */
  const MissingCookieMarker := "invalid or missing encoding declaration for"

  /** `os.path.getsize(file_path) / 1048576`, without the rounding to four places. */
  function SizeInMb(file: seq<byte>): (mb: real)
    ensures mb >= 0.0
    ensures |file| as real == mb * BytesPerMb
  {
    |file| as real / BytesPerMb
  }

  /** Python's `x < v` for a float `x`: a bool compares as 0 or 1, and `None`
      or a string raises `TypeError` (`None` here). */
  function FloatLessThan(x: real, v: Value): (r: Option<bool>)
    ensures r.None? <==> v.PyNone? || v.PyStr?
    ensures v.PyNum? ==> r == Some(x < v.n)
    ensures v.PyBool? ==> r == Some(x < if v.b then 1.0 else 0.0)
  {
    match v
    case PyNum(n) => Some(x < n)
    case PyBool(b) => Some(x < if b then 1.0 else 0.0)
    case _ => None
  }

  /** Lines 92-94 once `size is not None`: the exception that ends the call. The
      `assert` raises when the file is not below the limit, and otherwise
      `sys.exit()` raises `SystemExit`. No branch lets the call continue. */
  function SizeGuard(sizeMb: real, limit: Value): (e: PyError)
    ensures e.SyntaxError? == false
    ensures limit.PyNum? ==> (e == SystemExit <==> sizeMb < limit.n)
    ensures limit.PyNum? ==> (e.AssertionError? <==> sizeMb >= limit.n)
    ensures limit.PyBool? ==> (e == SystemExit <==> sizeMb < if limit.b then 1.0 else 0.0)
    ensures limit.PyStr? ==> e == TypeError
  {
    match FloatLessThan(sizeMb, limit)
    case None => TypeError
    case Some(below) => if below then SystemExit else AssertionError(SizeLimitMessage)
  }

  /** `x is False`: identity with the `False` singleton. */
  predicate IsFalseSingleton(v: Value)
  {
    v == PyBool(false)
  }

  /** The test at line 104. Python chains `a in b is c` into `(a in b) and (b is c)`,
      so the test is `marker in str(err) and str(err) is False`. */
  predicate ReraiseAsWritten(message: string)
  {
    Contains(message, MissingCookieMarker) && IsFalseSingleton(PyStr(message))
  }

  /** The test at line 104 holds for no message: a string is never the `False`
      singleton, so no `SyntaxError` from the scan is re-raised. */
  lemma ReraiseAsWrittenNeverHolds(message: string)
    ensures !ReraiseAsWritten(message)
  {
  }

  /** How the cookie check at lines 96-113 ends. */
  datatype CookieCheck = CodecKnown(codec: string) | NoCookie | Reraised(message: string)

  /** Lines 96-113: the scan's codec when it returns, the re-raise when the test at
      line 104 holds, and a fall-through to brute-force search otherwise. */
  function CheckCookie(scanned: ScanResult): (c: CookieCheck)
    ensures scanned.Declared? <==> c.CodecKnown?
    ensures scanned.Declared? ==> c.codec == scanned.encoding
    ensures !c.Reraised?
  {
    match scanned
    case Declared(name) => CodecKnown(name)
    case ScanSyntaxError(message) =>
      ReraiseAsWrittenNeverHolds(message);
      if ReraiseAsWritten(message) then Reraised(message) else NoCookie
  }

  /** Lines 122-136 with the outer loop cut off after `passes` passes. */
  function SearchLoop(contents: seq<byte>, decode: Decoder, codecs: seq<string>, passes: nat): (r: Outcome)
    ensures r.Returned? ==> r.codec in codecs && Decodes(decode, contents, r.codec)
    ensures r.Returned? ==> exists k :: IsFirstMatchAt(contents, decode, codecs, k) && codecs[k] == r.codec
    ensures !r.Raised?
    decreases passes
  {
    if passes == 0 then StillSearching
    else
      match FirstMatch(contents, decode, codecs)
      case Some(codec) => Returned(codec)
      case None => SearchLoop(contents, decode, codecs, passes - 1)
  }

  /** Once a pass has run, more passes change nothing: every pass re-tries the same
      list on the same bytes, so the outer loop ends after its first pass or never. */
  lemma {:induction false} SearchLoopSettles(contents: seq<byte>, decode: Decoder, codecs: seq<string>, passes: nat)
    requires passes >= 1
    ensures FirstMatch(contents, decode, codecs).Some? ==>
              SearchLoop(contents, decode, codecs, passes) == Returned(FirstMatch(contents, decode, codecs).value)
    ensures FirstMatch(contents, decode, codecs).None? ==> SearchLoop(contents, decode, codecs, passes) == StillSearching
    decreases passes
  {
    if passes > 1 {
      SearchLoopSettles(contents, decode, codecs, passes - 1);
    }
  }

  /** When no codec decodes the bytes, the search is still running however many passes it is given. */
  lemma SearchLoopDiverges(contents: seq<byte>, decode: Decoder, codecs: seq<string>)
    requires NoneDecodes(contents, decode, codecs)
    ensures forall passes: nat :: SearchLoop(contents, decode, codecs, passes) == StillSearching
  {
    forall passes: nat
      ensures SearchLoop(contents, decode, codecs, passes) == StillSearching
    {
      if passes >= 1 {
        SearchLoopSettles(contents, decode, codecs, passes);
      }
    }
  }

  /** The nested loops at lines 122-136, the outer one allowed `passes` passes:
      `codec_known` stays false and the `for` loop restarts until a codec decodes. */
  method Search(contents: seq<byte>, decode: Decoder, codecs: seq<string>, passes: nat) returns (r: Outcome)
    ensures r == SearchLoop(contents, decode, codecs, passes)
    ensures r.Returned? ==> exists k :: IsFirstMatchAt(contents, decode, codecs, k) && codecs[k] == r.codec
    ensures r.StillSearching? <==> passes == 0 || NoneDecodes(contents, decode, codecs)
  {
    var codecKnown := false;
    var detected := "";
    var pass := 0;
    while !codecKnown && pass < passes
      invariant 0 <= pass <= passes
      invariant !codecKnown ==> pass == 0 || NoneDecodes(contents, decode, codecs)
      invariant codecKnown ==> pass >= 1 && FirstMatch(contents, decode, codecs) == Some(detected)
      decreases passes - pass
    {
      codecKnown, detected := SearchPass(contents, decode, codecs);
      pass := pass + 1;
    }
    if codecKnown {
      SearchLoopSettles(contents, decode, codecs, passes);
      r := Returned(detected);
    } else {
      if passes >= 1 {
        SearchLoopSettles(contents, decode, codecs, passes);
      }
      r := StillSearching;
    }
  }

  /** `params['size'] is not None`. */
  predicate SizeLimitSet(kwargs: seq<(string, Value)>)
  {
    CallParams(kwargs)[SizeKey] != PyNone
  }

  /** The bytes handed to the search: the whole file or its first line, by `full_check`. */
  function Contents(file: seq<byte>, kwargs: seq<(string, Value)>): seq<byte>
  {
    Sample(file, Truthy(CallParams(kwargs)[FullCheckKey]))
  }

  /** `detect_encoding(file_path, **kwargs)` on a file whose bytes are `file`. */
  function DetectEncoding(file: seq<byte>, kwargs: seq<(string, Value)>, lib: Library, passes: nat): (r: Outcome)
    ensures r.Raised? <==> SizeLimitSet(kwargs)
    ensures r.Raised? ==> !r.error.SyntaxError?
    ensures !SizeLimitSet(kwargs) && lib.scan(file).Declared? ==> r == Returned(lib.scan(file).encoding)
    ensures r.Returned? && !lib.scan(file).Declared? ==>
              exists k :: IsFirstMatchAt(Contents(file, kwargs), lib.decode, CODECS, k) && CODECS[k] == r.codec
  {
    var params := CallParams(kwargs);
    if params[SizeKey] != PyNone then
      Raised(SizeGuard(SizeInMb(file), params[SizeKey]))
    else
      match CheckCookie(lib.scan(file))
      case Reraised(message) => Raised(SyntaxError(message))
      case CodecKnown(codec) => Returned(codec)
      case NoCookie => SearchLoop(Contents(file, kwargs), lib.decode, CODECS, passes)
  }

  /** The size guard comes before any read or decode: once `size` is set, the outcome
      depends on neither library facility nor the file's bytes, only on its length,
      and it is never a codec. */
  lemma SizeGuardPrecedesScanAndDecode(file: seq<byte>, other: seq<byte>, kwargs: seq<(string, Value)>,
                                       lib: Library, lib': Library, passes: nat, passes': nat)
    requires SizeLimitSet(kwargs)
    requires |file| == |other|
    ensures DetectEncoding(file, kwargs, lib, passes) == DetectEncoding(other, kwargs, lib', passes')
    ensures !DetectEncoding(file, kwargs, lib, passes).Returned?
  {
  }

  /** A file below the limit still aborts: `sys.exit()` follows the `assert` unconditionally.
      The bound keeps the size clear of the rounding to four places, which takes
      1048524 bytes and more up to 1.0 MB. */
  lemma SmallFileWithLimitExits(file: seq<byte>, lib: Library, passes: nat)
    requires |file| < 1048523
    ensures DetectEncoding(file, [(SizeKey, PyNum(1.0))], lib, passes) == Raised(SystemExit)
  {
    OneKeyword(SizeKey, PyNum(1.0));
  }

  /** The cookie bypass: a declared codec is returned as is, whatever the decoder says and
      whether or not it is in `CODECS` (the scan reports a `latin-1` declaration as
      `iso-8859-1`, which is not). */
  lemma CookieBypassesSearch(file: seq<byte>, name: string, decode: Decoder, passes: nat)
    ensures DetectEncoding(file, [], Library(_ => Declared(name), decode), passes) == Returned(name)
  {
    NoKeywordsMeansDefaults();
  }

  /** The message the scan gives for a cookie naming an unknown codec, for a file named `path`. */
  function UnknownEncodingMessage(path: string, name: string): string
  {
    "unknown encoding for '" + path + "': " + name
  }

  /** A `SyntaxError` unrelated to a missing declaration is swallowed too: whatever its
      message, the call goes on to brute-force search instead of raising. */
  lemma UnrelatedSyntaxErrorSwallowed(file: seq<byte>, message: string, decode: Decoder, passes: nat)
    requires !Contains(message, MissingCookieMarker)
    ensures DetectEncoding(file, [], Library(_ => ScanSyntaxError(message), decode), passes)
            == SearchLoop(file, decode, CODECS, passes)
  {
    NoKeywordsMeansDefaults();
  }

  /** The unknown-codec message for a file named `sample.txt` lacks the marker, so the
      scan error it belongs to is swallowed. */
  lemma UnknownEncodingSwallowed(file: seq<byte>, decode: Decoder, passes: nat)
    ensures !Contains(UnknownEncodingMessage("sample.txt", "foo"), MissingCookieMarker)
    ensures DetectEncoding(file, [], Library(_ => ScanSyntaxError(UnknownEncodingMessage("sample.txt", "foo")), decode), passes)
            == SearchLoop(file, decode, CODECS, passes)
  {
    UnrelatedSyntaxErrorSwallowed(file, UnknownEncodingMessage("sample.txt", "foo"), decode, passes);
  }

  /** Without a size limit or a cookie, one pass is enough to settle the call: a codec that
      decodes the sampled bytes means the first such codec is returned, and none means the
      call never returns. */
  lemma {:induction false} SearchOutcome(file: seq<byte>, kwargs: seq<(string, Value)>, lib: Library, passes: nat)
    requires !SizeLimitSet(kwargs)
    requires !lib.scan(file).Declared?
    requires passes >= 1
    ensures forall k :: IsFirstMatchAt(Contents(file, kwargs), lib.decode, CODECS, k) ==>
              DetectEncoding(file, kwargs, lib, passes) == Returned(CODECS[k])
    ensures NoneDecodes(Contents(file, kwargs), lib.decode, CODECS) <==>
              DetectEncoding(file, kwargs, lib, passes) == StillSearching
  {
    var contents := Contents(file, kwargs);
    SearchLoopSettles(contents, lib.decode, CODECS, passes);
    forall k | IsFirstMatchAt(contents, lib.decode, CODECS, k)
      ensures DetectEncoding(file, kwargs, lib, passes) == Returned(CODECS[k])
    {
      FirstMatchIsAtMinimalIndex(contents, lib.decode, CODECS, k);
    }
  }

  /** The call never ends when no codec decodes the sampled bytes: it is still searching
      whatever number of passes it is given. */
  lemma {:induction false} DetectEncodingDiverges(file: seq<byte>, kwargs: seq<(string, Value)>, lib: Library)
    requires !SizeLimitSet(kwargs)
    requires !lib.scan(file).Declared?
    requires NoneDecodes(Contents(file, kwargs), lib.decode, CODECS)
    ensures forall passes: nat :: DetectEncoding(file, kwargs, lib, passes) == StillSearching
  {
    SearchLoopDiverges(Contents(file, kwargs), lib.decode, CODECS);
  }

  /** With `full_check=False` only the first line is tried: bytes after the first
      newline have no say in the result. */
  lemma {:induction false} FirstLineOnly(file: seq<byte>, rest: seq<byte>, lib: Library, passes: nat)
    requires Newline in file
    requires lib.scan(file + rest) == lib.scan(file)
    ensures DetectEncoding(file + rest, [(FullCheckKey, PyBool(false))], lib, passes) ==
            DetectEncoding(file, [(FullCheckKey, PyBool(false))], lib, passes)
  {
    var kwargs := [(FullCheckKey, PyBool(false))];
    OneKeyword(FullCheckKey, PyBool(false));
    FirstLineIgnoresRest(file, rest);
    assert Contents(file + rest, kwargs) == Contents(file, kwargs);
  }

  /** An empty file for which the scan raises: every codec decodes zero bytes, so the
      first entry wins. */
  lemma EmptyFileWithScanErrorIsAscii(lib: Library, passes: nat)
    requires lib.scan([]).ScanSyntaxError?
    requires forall codec :: lib.decode([], codec) == Decoded
    requires passes >= 1
    ensures DetectEncoding([], [], lib, passes) == Returned("ascii")
  {
    assert IsFirstMatchAt([], lib.decode, CODECS, 0);
    SearchOutcome([], [], lib, passes);
  }

  /** The standard scan raises nothing on an empty file and reports its default `utf-8`;
      that name is then the result, and no codec is tried. */
  lemma EmptyFileIsUtf8(lib: Library, passes: nat)
    requires lib.scan([]) == Declared("utf-8")
    ensures DetectEncoding([], [], lib, passes) == Returned("utf-8")
  {
    NoKeywordsMeansDefaults();
  }

  /** Bytes that only `cp1252` and later codecs decode are reported as `cp1252`. */
  lemma Cp1252File(file: seq<byte>, lib: Library, passes: nat)
    requires lib.scan(file).ScanSyntaxError?
    requires Decodes(lib.decode, file, "cp1252")
    requires forall j :: 0 <= j < 45 ==> !Decodes(lib.decode, file, CODECS[j])
    requires passes >= 1
    ensures DetectEncoding(file, [], lib, passes) == Returned("cp1252")
  {
    assert CODECS[45] == "cp1252";
    assert IsFirstMatchAt(file, lib.decode, CODECS, 45);
    SearchOutcome(file, [], lib, passes);
  }
}

=== FILE: intended.dfy ===
/**
 `detect_encoding` with the size guard and the re-raise test written as their
 comments and messages say they should behave: the call aborts only when the
 file is not below the size limit, and a `SyntaxError` from the scan that is
 not about a missing or undecodable declaration propagates. Everything else
 is the as-written model of the `Detect` module.
 */
module Intended {
  import opened PyValues
  import opened Codecs
  import opened Params
  import opened Sampling
  import opened Detect

  /** The size guard as intended: the exception that ends the call, or none when
      the file is below the limit and the call goes on. */
  function SizeGuardIntended(sizeMb: real, limit: Value): (e: Option<PyError>)
    ensures limit.PyNum? ==> (e.None? <==> sizeMb < limit.n)
    ensures limit.PyNum? && e.Some? ==> e.value == AssertionError(SizeLimitMessage)
    ensures limit.PyStr? ==> e == Some(TypeError)
    ensures e.Some? ==> !e.value.SyntaxError?
  {
    match FloatLessThan(sizeMb, limit)
    case None => Some(TypeError)
    case Some(below) => if below then None else Some(AssertionError(SizeLimitMessage))
  }

  /** The re-raise test as intended: re-raise unless the message marks a missing declaration. */
  predicate ReraiseIntended(message: string)
  {
    !Contains(message, MissingCookieMarker)
  }

  /** The cookie check with the intended re-raise test. */
  function CheckCookieIntended(scanned: ScanResult): (c: CookieCheck)
    ensures scanned.Declared? <==> c.CodecKnown?
    ensures scanned.Declared? ==> c.codec == scanned.encoding
    ensures scanned.ScanSyntaxError? ==>
              (c == Reraised(scanned.message) <==> !Contains(scanned.message, MissingCookieMarker))
    ensures c.Reraised? ==> scanned == ScanSyntaxError(c.message) && ReraiseIntended(c.message)
    ensures c.NoCookie? ==> CheckCookie(scanned).NoCookie?
  {
    match scanned
    case Declared(name) => CodecKnown(name)
    case ScanSyntaxError(message) =>
      if ReraiseIntended(message) then Reraised(message) else NoCookie
  }

  /** The corrected guard lets the call go on: no `size`, or a limit the file is below
      (a number above its size, or `True` for a file under 1 MB). */
  predicate GuardPasses(file: seq<byte>, kwargs: seq<(string, Value)>)
  {
    var limit := CallParams(kwargs)[SizeKey];
    limit.PyNone? || SizeGuardIntended(SizeInMb(file), limit).None?
  }

  /** The call with both corrections; the search is the as-written one. */
  function DetectEncodingIntended(file: seq<byte>, kwargs: seq<(string, Value)>, lib: Library, passes: nat): (r: Outcome)
    ensures CallParams(kwargs)[SizeKey].PyNum? && SizeInMb(file) >= CallParams(kwargs)[SizeKey].n ==>
              r == Raised(AssertionError(SizeLimitMessage))
    ensures CallParams(kwargs)[SizeKey].PyStr? ==> r == Raised(TypeError)
    ensures GuardPasses(file, kwargs) && lib.scan(file).Declared? ==> r == Returned(lib.scan(file).encoding)
    ensures GuardPasses(file, kwargs) && lib.scan(file).ScanSyntaxError? &&
            !Contains(lib.scan(file).message, MissingCookieMarker) ==>
              r == Raised(SyntaxError(lib.scan(file).message))
    ensures r.Returned? && !lib.scan(file).Declared? ==>
              exists k :: IsFirstMatchAt(Contents(file, kwargs), lib.decode, CODECS, k) && CODECS[k] == r.codec
    ensures r.Raised? && r.error.SyntaxError? ==>
              lib.scan(file) == ScanSyntaxError(r.error.message) &&
              ReraiseIntended(r.error.message)
  {
    var params := CallParams(kwargs);
    if params[SizeKey] != PyNone && SizeGuardIntended(SizeInMb(file), params[SizeKey]).Some? then
      Raised(SizeGuardIntended(SizeInMb(file), params[SizeKey]).value)
    else
      match CheckCookieIntended(lib.scan(file))
      case Reraised(message) => Raised(SyntaxError(message))
      case CodecKnown(codec) => Returned(codec)
      case NoCookie => SearchLoop(Contents(file, kwargs), lib.decode, CODECS, passes)
  }

  /** With a numeric limit the intended guard lets a file below the limit through, to the
      same outcome as a call without a limit, and aborts with the assertion otherwise. */
  lemma {:induction false} IntendedSizeGuard(file: seq<byte>, limit: real, lib: Library, passes: nat)
    ensures SizeInMb(file) < limit ==>
              DetectEncodingIntended(file, [(SizeKey, PyNum(limit))], lib, passes) ==
              DetectEncodingIntended(file, [], lib, passes)
    ensures SizeInMb(file) >= limit ==>
              DetectEncodingIntended(file, [(SizeKey, PyNum(limit))], lib, passes) ==
              Raised(AssertionError(SizeLimitMessage))
  {
    var kwargs := [(SizeKey, PyNum(limit))];
    OneKeyword(SizeKey, PyNum(limit));
    NoKeywordsMeansDefaults();
    assert Contents(file, kwargs) == Contents(file, []);
  }

  /** The intended re-raise test propagates every scan error that is not about a missing
      declaration, such as the unknown-codec error that the code as written swallows. */
  lemma IntendedReraisesUnrelated(file: seq<byte>, message: string, decode: Decoder, passes: nat)
    requires !Contains(message, MissingCookieMarker)
    ensures DetectEncodingIntended(file, [], Library(_ => ScanSyntaxError(message), decode), passes)
            == Raised(SyntaxError(message))
  {
    NoKeywordsMeansDefaults();
  }

  /** Without a size limit, and when the scan returns or reports a missing declaration,
      the corrected call and the call as written agree. */
  lemma {:induction false} IntendedAgreesOtherwise(file: seq<byte>, kwargs: seq<(string, Value)>, lib: Library, passes: nat)
    requires !SizeLimitSet(kwargs)
    requires lib.scan(file).ScanSyntaxError? ==> Contains(lib.scan(file).message, MissingCookieMarker)
    ensures DetectEncodingIntended(file, kwargs, lib, passes) == DetectEncoding(file, kwargs, lib, passes)
  {
    ReraiseAsWrittenNeverHolds(if lib.scan(file).ScanSyntaxError? then lib.scan(file).message else "");
  }
}

=== FILE: params.dfy ===
/**
 The keyword-argument merge at the top of `detect_encoding`: a dictionary of
 defaults, then one assignment per supplied keyword, in the order supplied.
 */
module Params {
  import opened PyValues

  const FullCheckKey := "full_check"
  const SizeKey := "size"
  const VerboseKey := "verbose"

  /** The `params` dictionary before any keyword is applied. */
  const Defaults: map<string, Value> :=
    map[FullCheckKey := PyBool(true), SizeKey := PyNone, VerboseKey := PyBool(false)]

  /** The keys of the supplied keyword arguments. */
  function SuppliedKeys(kwargs: seq<(string, Value)>): (keys: set<string>)
    ensures forall i :: 0 <= i < |kwargs| ==> kwargs[i].0 in keys
    ensures forall key :: key in keys ==> exists i :: 0 <= i < |kwargs| && kwargs[i].0 == key
    decreases |kwargs|
  {
    if |kwargs| == 0 then {}
    else
      var front := kwargs[..|kwargs| - 1];
      assert forall i :: 0 <= i < |front| ==> front[i] == kwargs[i];
      SuppliedKeys(front) + {kwargs[|kwargs| - 1].0}
  }

  /** The position of the last assignment to `key`, or -1 when `key` is not supplied. */
  function LastIndexOf(kwargs: seq<(string, Value)>, key: string): (i: int)
    ensures -1 <= i < |kwargs|
    ensures i >= 0 ==> kwargs[i].0 == key
    ensures forall j :: i < j < |kwargs| ==> kwargs[j].0 != key
    decreases |kwargs|
  {
    if |kwargs| == 0 then -1
    else if kwargs[|kwargs| - 1].0 == key then |kwargs| - 1
    else
      var front := kwargs[..|kwargs| - 1];
      assert forall j :: 0 <= j < |front| ==> front[j] == kwargs[j];
      LastIndexOf(front, key)
  }

  /** The value last supplied for `key`, if any: the later of two assignments to one key wins. */
  function LastSupplied(kwargs: seq<(string, Value)>, key: string): (v: Option<Value>)
    ensures v.None? <==> key !in SuppliedKeys(kwargs)
    ensures v.Some? ==> exists i :: 0 <= i < |kwargs| && kwargs[i] == (key, v.value) &&
                                    forall j :: i < j < |kwargs| ==> kwargs[j].0 != key
  {
    var i := LastIndexOf(kwargs, key);
    if i < 0 then None
    else
      assert kwargs[i] == (key, kwargs[i].1);
      Some(kwargs[i].1)
  }

  /** `params` after the loop `for key, value in kwargs.items(): params[key] = value`
      has run over all of `kwargs`, starting from `params`. */
  function Merge(params: map<string, Value>, kwargs: seq<(string, Value)>): (r: map<string, Value>)
    ensures r.Keys == params.Keys + SuppliedKeys(kwargs)
    decreases |kwargs|
  {
    if |kwargs| == 0 then params
    else
      var (key, value) := kwargs[|kwargs| - 1];
      Merge(params, kwargs[..|kwargs| - 1])[key := value]
  }

  /** After the merge a supplied key holds the value last supplied for it, and any
      other key keeps the value it started with. */
  lemma {:induction false} MergeLookup(params: map<string, Value>, kwargs: seq<(string, Value)>, key: string)
    ensures key in SuppliedKeys(kwargs) ==> Merge(params, kwargs)[key] == LastSupplied(kwargs, key).value
    ensures key in params && key !in SuppliedKeys(kwargs) ==> Merge(params, kwargs)[key] == params[key]
    decreases |kwargs|
  {
    if |kwargs| > 0 {
      var front := kwargs[..|kwargs| - 1];
      MergeLookup(params, front, key);
      if kwargs[|kwargs| - 1].0 != key {
        assert LastIndexOf(kwargs, key) == LastIndexOf(front, key);
      }
    }
  }

  /** The parameters a call to `detect_encoding` runs with. */
  function CallParams(kwargs: seq<(string, Value)>): (params: map<string, Value>)
    ensures Defaults.Keys <= params.Keys
  {
    Merge(Defaults, kwargs)
  }

  /** A supplied keyword changes only its own entry: every key the caller does not
      supply keeps its default, and every supplied key holds the value last supplied. */
  lemma {:induction false} OverrideOnlyOwnEntry(kwargs: seq<(string, Value)>, key: string)
    requires key in Defaults
    ensures key !in SuppliedKeys(kwargs) ==> CallParams(kwargs)[key] == Defaults[key]
    ensures key in SuppliedKeys(kwargs) ==> CallParams(kwargs)[key] == LastSupplied(kwargs, key).value
  {
    MergeLookup(Defaults, kwargs, key);
  }

  /** A single keyword replaces its own default and nothing else. */
  lemma OneKeyword(key: string, value: Value)
    ensures CallParams([(key, value)]) == Defaults[key := value]
  {
    var kwargs := [(key, value)];
    assert kwargs[..0] == [];
    assert Merge(Defaults, kwargs) == Merge(Defaults, [])[key := value];
  }

  /** With no keyword arguments the call runs with the defaults: a full check,
      no size limit and no diagnostics. */
  lemma NoKeywordsMeansDefaults()
    ensures CallParams([]) == Defaults
    ensures CallParams([])[FullCheckKey] == PyBool(true)
    ensures CallParams([])[SizeKey] == PyNone
    ensures CallParams([])[VerboseKey] == PyBool(false)
  {
  }
}

=== FILE: python_values.dfy ===
/**
 This module gathers the small pieces of Python semantics the encoding detector
 relies on: bytes, the values a keyword argument can carry, truthiness, the
 substring test `in` on strings, and the exceptions that can end a call.
 */
module PyValues {

  /** A byte of a `bytes` object. */
  newtype byte = x: int | 0 <= x < 256

  /** The byte `b'\n'`. */
  const Newline: byte := 10

  datatype Option<+T> = None | Some(value: T)

  /** The values a caller passes as keyword arguments. Floats are modelled as reals. */
  datatype Value = PyNone | PyBool(b: bool) | PyNum(n: real) | PyStr(s: string)

  /** Python truthiness, as used by `if params['full_check']:`. */
  predicate Truthy(v: Value)
  {
    match v
    case PyNone => false
    case PyBool(b) => b
    case PyNum(n) => n != 0.0
    case PyStr(s) => |s| > 0
  }

  /** The exceptions that can leave the detector. */
  datatype PyError =
    | AssertionError(message: string)
    | SystemExit
    | TypeError
    | SyntaxError(message: string)

  /** `sub` occurs as a contiguous slice of `s`. */
  predicate IsSubstringAt(s: string, sub: string, i: nat)
  {
    i + |sub| <= |s| && s[i..i + |sub|] == sub
  }

  /** Python's `sub in s` on strings. */
  function Contains(s: string, sub: string): (r: bool)
    ensures r <==> exists i: nat :: IsSubstringAt(s, sub, i)
    decreases |s|
  {
    if |sub| > |s| then
      assert forall i: nat :: !IsSubstringAt(s, sub, i);
      false
    else if s[..|sub|] == sub then
      assert IsSubstringAt(s, sub, 0);
      true
    else
      var rest := Contains(s[1..], sub);
      ContainsShift(s, sub);
      rest
  }

  /** An occurrence in `s` past position 0 is an occurrence in `s[1..]`, and back. */
  lemma ContainsShift(s: string, sub: string)
    requires |s| > 0
    requires !IsSubstringAt(s, sub, 0)
    ensures (exists i: nat :: IsSubstringAt(s, sub, i)) <==> (exists i: nat :: IsSubstringAt(s[1..], sub, i))
  {
    if i: nat :| IsSubstringAt(s, sub, i) {
      assert i >= 1;
      assert s[1..][i - 1..i - 1 + |sub|] == s[i..i + |sub|];
      assert IsSubstringAt(s[1..], sub, i - 1);
    }
    if i: nat :| IsSubstringAt(s[1..], sub, i) {
      assert s[1..][i..i + |sub|] == s[i + 1..i + 1 + |sub|];
      assert IsSubstringAt(s, sub, i + 1);
    }
  }
}

=== FILE: sampling.dfy ===
/**
 The bytes the trial decoder sees: the whole file (`file.read()`) or its first
 line (`file.readline()` on a file opened in binary mode).
 */
module Sampling {
  import opened PyValues

  /** `readline()` at the start of `file`: bytes up to and including the first
      `b'\n'`, or the whole file when it has none. */
  function FirstLine(file: seq<byte>): (line: seq<byte>)
    ensures line <= file
    ensures forall i :: 0 <= i < |line| - 1 ==> line[i] != Newline
    ensures Newline in file ==> |line| > 0 && line[|line| - 1] == Newline
    ensures Newline !in file ==> line == file
    decreases |file|
  {
    if |file| == 0 then []
    else if file[0] == Newline then [Newline]
    else
      assert Newline in file ==> Newline in file[1..];
      [file[0]] + FirstLine(file[1..])
  }

  /** The first line is the only prefix of the file that ends at its first newline,
      so the properties stated above determine it. */
  lemma {:induction false} FirstLineUnique(file: seq<byte>, line: seq<byte>)
    requires line <= file
    requires forall i :: 0 <= i < |line| - 1 ==> line[i] != Newline
    requires Newline in file ==> |line| > 0 && line[|line| - 1] == Newline
    requires Newline !in file ==> line == file
    ensures line == FirstLine(file)
  {
  }

  /** Bytes after the first newline do not change the first line. */
  lemma {:induction false} FirstLineIgnoresRest(file: seq<byte>, rest: seq<byte>)
    requires Newline in file
    ensures FirstLine(file + rest) == FirstLine(file)
    decreases |file|
  {
    if file[0] != Newline {
      assert (file + rest)[1..] == file[1..] + rest;
      FirstLineIgnoresRest(file[1..], rest);
    }
  }

  /** `contents`: the whole file when `full_check` is truthy, otherwise its first line. */
  function Sample(file: seq<byte>, fullCheck: bool): (contents: seq<byte>)
    ensures fullCheck ==> contents == file
    ensures !fullCheck ==> contents == FirstLine(file)
    ensures contents <= file
  {
    if fullCheck then file else FirstLine(file)
  }
}
